=== FILE: README.md ===
# PhyPy core, modelled in Dafny

PhyPy is a small 2D physics toy. This is a model of its two sequential cores.

- **Force physics.** A body (`PhysicsObj`, concretely a `Ball`) has:
  - a position and a size;
  - a velocity and per-axis terminal velocities;
  - an insertion-ordered dictionary of named forces.

  Each frame, the application loop checks the display edges. That check builds a set of string signals (`apply_bounce_x`, `apply_bounce_y`). A ball touching or past the far edge of an axis is put flush against that edge. A ball at or before zero only raises the signal and keeps its position. `Ball.update` then runs four steps in order:
  1. every force (gravity, bounce, wind) acts on the velocity under those signals;
  2. both components are clamped to the terminal velocities;
  3. friction of 0.1 is applied to vx;
  4. the position moves by 0.9 times the velocity.
- **Gesture tracking.** A pinch detector runs per hand (`LEFT`, `RIGHT`). It is a hysteresis and debounce state machine: a counter bounded in [-3, 3] plus a pinched flag.
  - The tracker keeps a sliding window of the last 5 pixel landmark sets per hand.
  - A finite-difference velocity is computed over that window.
  - When a hand goes missing, "ghost" frames extrapolate it from that velocity.
  - A per-frame bookkeeping step tracks which hands were seen and how many frames each has been missing.

Files and modules:

| file | module | contents |
|---|---|---|
| `forces.dfy` | `Forces` | `Vec` and the closed `Force` variant, with `Apply` dispatching on it. Gravity, bounce and wind properties. |
| `ball.dfy` | `Bodies` | The force dictionary, clamp, friction and the per-frame `Tick`. The class `PhysicsObj` has constructors `Init` (`PhysicsObj.__init__`) and `Ball` (`Ball.__init__`), plus `ApplyForce`, `ApplyForces`, `Limit` and `Update`. |
| `app.dfy` | `App` | The edge checks of the frame loop, and the physics half of one frame. |
| `window.dfy` | `Window` | The bounded sliding window (`HISTOGRAM_SIZE` = 5), shared by the detector's `deque(maxlen=5)` and the pixel histogram's `pop(0)`/`append`. |
| `pinch.dfy` | `Pinch` | The pinch state machine `PinchStep` and its run lemmas. The class `PinchDetector` has `Update`. |
| `ar.dfy` | `Tracking` | Mirrored pixel conversion, `Velocity`, `Ghost` and ghost histories. The class `AR` has `RenderHands` and the per-frame `Render`. |

How the source is represented:

- **Arithmetic.** All arithmetic is over `real`.
- **Signals and wind types.** Both stay strings, as in the source.
- **The force dictionary.** It becomes a sequence of (name, force) pairs with distinct names, in insertion order. `Put` is dictionary assignment.
- **The camera and the landmark detector.** These become a per-frame `Capture` input with three cases:
  - `ReadFailed`;
  - `Captured([])`, meaning no hands;
  - `Captured(hands)`, where each detected hand carries its label, its normalized landmarks, and two distances: thumb tip to index tip (`rawDist`), and wrist to middle knuckle (`handScale`).

## Model

| member | source | states |
|---|---|---|
| Forces.Apply | scripts/forces.py:4-11 | The `apply_force` of each concrete force: gravity (scripts/gravity.py:10), bounce (scripts/bounce.py:11-14) and wind (scripts/wind.py:12-15), branch for branch. No force changes both velocity components in one application. |
| Forces.ApplyAllSnoc | scripts/ball.py:21-23 | `ApplyAll`, the force loop as a fold: applying a list of forces and then one more equals applying the extended list. Each force acts exactly once, in list order. |
| Forces.ApplyAllAppend | scripts/ball.py:21-23 | `ApplyAll` over a concatenation is `ApplyAll` of the second list on the result of the first, so the loop can be split anywhere. |
| Forces.GravityPulls | scripts/gravity.py:9-10 | Gravity adds exactly its pull to vy. It leaves vx unchanged and gives the same result under any signal set. |
| Forces.GravityRepeated | scripts/gravity.py:10 | n gravity applications add n × pull to vy and leave vx alone. |
| Forces.GravityShift | scripts/gravity.py:10 | Gravity does not depend on vy: starting c higher ends c higher after any number of applications. |
| Forces.GravityIncreasing | scripts/gravity.py:10 | With a positive pull, more applications give a strictly larger vy. |
| Forces.BounceReflectsOneAxis | scripts/bounce.py:9-14 | With `apply_bounce_x`, vx becomes -damping·vx. Otherwise, with `apply_bounce_y`, vy becomes -damping·vy. Otherwise the velocity is unchanged. |
| Forces.BounceCornerReflectsX | scripts/bounce.py:11-14 | With both bounce signals present, only vx is reflected. |
| Forces.BounceExample | scripts/bounce.py:12 | v = (3, -2), damping 0.9 and `apply_bounce_x` give (-2.7, -2). |
| Forces.BounceDampens | scripts/bounce.py:11-14 | For damping in [0, 1], neither component grows in magnitude, and a reflected vx does not keep its sign. |
| Forces.WindX | scripts/wind.py:12-13 | A `wind_x` force adds its force to vx, negated when `left` is signalled. vy is unchanged, and `up` has no effect. |
| Forces.WindY | scripts/wind.py:14-15 | A `wind_y` force adds its force to vy, negated when `up` is signalled. vx is unchanged, and `left` has no effect. |
| Forces.WindOtherType | scripts/wind.py:12-15 | A wind of any other type leaves the velocity unchanged. |
| Forces.ApplyTwo | scripts/ball.py:21-23 | For two forces in a row, the second acts on the first one's result. |
| Forces.WindsCommute | scripts/wind.py:12-15 | One `wind_x` and one `wind_y` force give the same velocity in either order. |
| Forces.GravityBounceOrderMatters | scripts/ball.py:21-23 | Insertion order matters. From rest with `apply_bounce_y`, gravity-then-bounce gives (0, -0.09) while bounce-then-gravity gives (0, 0.1). |
| Bodies.Values | scripts/ball.py:21-23 | The forces in iteration order: one per dictionary entry, at the same position. |
| Bodies.Put | scripts/ball.py:13-14 | After `forces[name] = f` the names are the old names plus `name`. A new name is appended at the end. |
| Bodies.PutKeepsDistinct | scripts/ball.py:13-14 | On a dictionary without repeated names, assignment keeps the names distinct. |
| Bodies.PutInPlace | scripts/ball.py:13-14 | Assigning to a registered name keeps the length and replaces that name's force where it stands. Every other entry stays as it was. |
| Bodies.Clamp | scripts/ball.py:25-33 | With t ≥ 0 the result lies in [-t, t]. A value already inside is unchanged, a value above t becomes t and a value below -t becomes -t. The magnitude never grows and the sign is kept. |
| Bodies.Friction | scripts/ball.py:35-38 | vx moves exactly 0.1 toward zero, or stops at zero when it is within 0.1 of it. It never crosses zero and never grows in magnitude. |
| Bodies.Tick | scripts/ball.py:19-38 | The end-of-frame velocity. With non-negative terminal velocities, abs(vx) ≤ tv.x and abs(vy) ≤ tv.y. vy is the clamped value with no friction. abs(vx) is at most abs(clamped vx). |
| Bodies.GravityTickRaisesVy | scripts/ball.py:19-33 | With gravity the only force and vy below its bound, a frame strictly raises vy and keeps it at or below the bound. Once the pull reaches the bound, vy lands exactly on it. |
| Bodies.PhysicsObj.Init | scripts/physicsobj.py:6-12 | A new body has no forces, position, size and velocity at zero, and terminal velocities exactly as given. |
| Bodies.PhysicsObj.Ball | scripts/ball.py:8-14 | A ball has the given position, size and terminal velocities, zero velocity, and every given (name, force) pair in the given order. |
| Bodies.PhysicsObj.ApplyForce | scripts/forces.py:9-11 | One force's `apply_force` changes only the body's velocity, to `Apply` of the old one. |
| Bodies.PhysicsObj.ApplyForces | scripts/ball.py:21-23 | The force loop leaves the velocity equal to every registered force applied once, in insertion order. |
| Bodies.PhysicsObj.Limit | scripts/ball.py:25-38 | The clamp and friction blocks change only the velocity. vx becomes `Friction(Clamp(vx, tv.x))` and vy becomes `Clamp(vy, tv.y)`. |
| Bodies.PhysicsObj.Update | scripts/ball.py:19-40 | The new velocity is `Tick` of the old one. Each position coordinate advances by 0.9 × the final velocity. Forces, size and terminal velocities are unchanged, and the force names stay distinct. |
| App.EdgeAxis | app.py:24-28 | On one axis, touching or passing the far edge puts the box flush against it, otherwise the coordinate is unchanged. The box ends within the limit. A bounce is signalled exactly when the box touches or passes the far edge or is at or before zero. |
| App.CheckEdges | app.py:24-34 | The signals start empty and only ever hold `apply_bounce_x`/`apply_bounce_y`, never `left` or `up`. Each signal is present exactly when its axis hit an edge, so a corner gives both. Afterwards pos + size ≤ display size on both axes. |
| App.Frame | app.py:17-37 | The ball is updated with exactly the signal set the edge checks built, starting from the corrected position. Its force names stay distinct. |
| Pinch.RelDist | scripts/ar.py:57 | The relative distance is infinite exactly when the hand scale is not positive. Otherwise it times the scale gives the raw distance. |
| Pinch.PinchStep | scripts/ar.py:59-77 | The counter stays in [-3, 3]. While unpinched it rises by 1 only on a frame below 0.15, and the flag is set exactly when the counter reaches 3. While pinched it falls by 1 only on a frame above 0.20 or infinite, and the flag is cleared exactly when the counter reaches -3. Reachable states stay reachable. |
| Pinch.ZeroScaleNeverPinches | scripts/ar.py:57-67 | From a reachable state, a frame with hand scale 0 leaves an unpinched hand unchanged and lowers a pinched hand's counter by 1. |
| Pinch.StaysUnpinched | scripts/ar.py:59-77 | An unpinched hand stays unpinched, with counter = start + on-frames, until it has seen enough on-frames. Off-frames in between do not reset it. |
| Pinch.PinchesOnFrame | scripts/ar.py:66-72 | The hand becomes pinched on exactly the on-frame that brings the counter to 3. |
| Pinch.StaysPinched | scripts/ar.py:59-77 | A pinched hand stays pinched, with counter = start − off-frames, until it has seen enough off-frames. |
| Pinch.ReleasesOnFrame | scripts/ar.py:62-74 | The hand is released on exactly the off-frame that brings the counter to -3. |
| Pinch.FirstPinchOnThirdFrame | scripts/ar.py:59-77 | From the initial state (0, unpinched), the hand is still unpinched after two on-frames and pinched on the third, whatever frames fall in between. |
| Pinch.LaterFlipsNeedSixFrames | scripts/ar.py:69-77 | The counter is not reset on a flip. From (3, pinched), release takes exactly six off-frames. From (-3, unpinched), the next pinch takes exactly six on-frames. |
| Pinch.HysteresisExample | scripts/ar.py:59-74 | Three frames at 0.10 pinch on the third. One frame at 0.25 while pinched lowers the counter to 2 without releasing. |
| Pinch.Observe | scripts/ar.py:47-77 | A detector update slides the landmarks into the hand's history. The history keeps at most 5 entries, newest last, with the older ones in order. The counter and flag advance by `PinchStep` on the relative distance. |
| Pinch.PinchDetector.constructor | scripts/ar.py:29-34 | Both hands start with an empty history, counter 0 and no pinch. |
| Pinch.PinchDetector.Update | scripts/ar.py:42-84 | Only the given hand's state changes, to `Observe` of its old state. The result reports the raw distance, the scale, the relative distance and the new flag. |
| Window.Slide | scripts/ar.py:117-123 | Appending keeps the new entry last and at most 5 entries. On overflow the oldest is dropped and the others keep their order. |
| Window.SlideAllKeepsNewest | scripts/ar.py:117-123 | After any run of appends, the window holds exactly the newest min(total, 5) entries of everything appended, in order. |
| Window.FifoAfterOverflow | scripts/ar.py:117-123 | After 5 + n appends to an empty window it holds 5 entries. The oldest is the (n+1)-th appended, `xs[n]` with 0-based indexing, and the newest is the last appended. |
| Tracking.PixelInside | scripts/ar.py:109-114 | Under `ToPixel`, the mirrored conversion, a landmark in the unit square lands inside the W×H surface. |
| Tracking.PixelMirrors | scripts/ar.py:112-113 | `ToPixel` mirrors x (further right in the image means further left in pixels) and keeps the order of y. |
| Tracking.PixelFrame | scripts/ar.py:110-114 | A hand in pixels has one point per landmark, in the same order. Each point is the `ToPixel` of its landmark. |
| Tracking.Velocity | scripts/ar.py:135-142 | The velocity is (0, 0) unless the window holds exactly 5 frames. Otherwise oldest knuckle + 5·v = newest knuckle, on each axis. |
| Tracking.Ghost | scripts/ar.py:157-160 | A ghost frame has as many points as the newest frame, each shifted by the velocity. |
| Tracking.GhostRepeatsUntilFull | scripts/ar.py:135-160 | Until the window is full, a ghost frame repeats the newest frame. |
| Tracking.GhostHistory | scripts/ar.py:206-210 | With a ghost frame added (the corrected behaviour), the history stays well formed and bounded. Its newest entry is the ghost and the older ones are kept in order. |
| Tracking.GhostHistoryAsWritten | scripts/ar.py:208-210 | The history the source actually stores, whose newest entry is the ghost run through the pixel conversion once more. |
| Tracking.GhostReconvertedCounterexample | scripts/ar.py:157-160 | For two identical frames at pixel (320, 240) on 640×480, the stored ghost point is (-204160, 115200) instead of (320, 240). |
| Tracking.ArData.Set | scripts/ar.py:195-198 | Filling one hand's report leaves the other hand's report unchanged. |
| Tracking.Seen | scripts/ar.py:179-185 | A label is seen exactly when some detection carries it. |
| Tracking.LastOf | scripts/ar.py:182-198 | The detection found for a seen label carries that label, and no later detection does. It is the one whose values the report keeps. |
| Tracking.SeenReport | scripts/ar.py:195-198 | A seen hand's report has the newest pixel frame of its window and its detector flag. Its scale and relative distance come from the last detection with that label, since later detections overwrite earlier ones. |
| Tracking.ObservedPixels | scripts/ar.py:182-195 | The window after a frame's detections: unchanged for an unseen label. For a seen label, its newest entry is the pixel frame of the label's last detection. It stays well formed. |
| Tracking.ObservedHand | scripts/ar.py:182-189 | The detector state after a frame's detections: unchanged for an unseen label, and still valid. |
| Tracking.AfterObserveStep | scripts/ar.py:182-200 | One more detection updates only its own label's window, detector state, report and miss counter. |
| Tracking.AR.constructor | scripts/ar.py:98-103 | The tracker starts with empty windows, zero miss counters and a fresh detector. |
| Tracking.AR.RenderHands | scripts/ar.py:105-123 | Every landmark is converted to pixels in order and the result slid into that hand's window. The other hand's window is untouched. |
| Tracking.AR.AddGhostFrame | scripts/ar.py:208-210 | The hand's window becomes `GhostHistory` of the old one (the corrected behaviour). |
| Tracking.AR.ObserveOne | scripts/ar.py:184-200 | One detection: pinch update, pixel window, report and miss-counter reset for its label only. If every label held what the earlier detections leave behind, it still does with this detection added. |
| Tracking.AR.ObserveHands | scripts/ar.py:179-200 | The labels returned are exactly those seen. Per label, the window, detector state, miss counter and report are as `AfterObserve` describes, taking the detections in order. |
| Tracking.AR.TrackMissing | scripts/ar.py:203-210 | A seen label is untouched. An unseen label's miss counter rises by 1, and it gets a ghost frame only with ≥ 2 history entries and fewer than 5 misses. |
| Tracking.AR.GhostWhenNoHands | scripts/ar.py:217-221 | With no detections, a label with ≥ 2 history entries gets a ghost frame. Its miss counter is not touched. |
| Tracking.AR.FrameWithHands | scripts/ar.py:181-210 | A frame with detections: per label, as `AfterFrame` describes. |
| Tracking.AR.FrameWithoutHands | scripts/ar.py:214-221 | A frame without detections: every label with ≥ 2 history entries gets a ghost frame, and nothing else changes. |
| Tracking.AR.Render | scripts/ar.py:162-223 | A failed read returns the defaults and changes no state. No hands means the defaults, ghost frames only, and counters and detector unchanged. Otherwise: seen labels are observed and reset, unseen ones are counted and possibly ghosted. |

## Left out

- Camera capture, colour conversion and the mediapipe hand detector are external. They are replaced by the `Capture` input.
- All pygame drawing, the event loop, the display, the clock and `Ball.rect` are drawing and windowing only.
- `PinchDetector.euclid` / `math.hypot` is a floating-point square root. The two distances are inputs instead, which also leaves out the choice of landmark indices 0, 4, 8 and 9 that feed them.
- Floating-point rounding is out of scope: everything is over reals. In particular, `((p + v) - p) * 0.9 == 0.9 * v` holds only over reals.
- The scalar branch of `calculate_velocity` (`dir=0`, a `hypot`) is not modelled. It is never used in the core, which only asks for the vector.
- `get_logger_info` and the engine setup are logging and setup only.
- The abstract `update`, `rect` and `apply_force` of the base classes raise `NotImplementedError`. They are replaced by the closed `Force` datatype and the concrete `Ball`, so the failure cannot arise.
- `PhysicsObj.angle`, `SCALE_SIZE` and `ATTACK_COOLDOWN` are never read.
- The `Ball(...)` construction in `App.__init__` passes five arguments to a four-parameter constructor. Only the edge-check block of the frame loop is modelled.
- List aliasing is not modelled. `pos` and `terminal_velocities` are Python lists that the caller could share with the ball; here they are values.
- The string-keyed `ar_data` dictionaries become one record per label. Labels other than `LEFT`/`RIGHT`, which would raise `KeyError`, cannot occur in the `Label` enumeration.
- Pinch.PinchDetector.Update, Tracking.AR.ObserveOne, Tracking.AR.ObserveHands, Tracking.AR.FrameWithHands and Tracking.AR.Render require every detected landmark set to have at least 10 points (`HasMcp`, `AllHaveMcp`). On a shorter set the source raises `IndexError` at scripts/ar.py:50-53. By then it has already appended the set to the detector's history, at scripts/ar.py:48, and `render` does not catch the error. That failure path is not modelled.
- Tracking.AR.TrackMissing, Tracking.AR.GhostWhenNoHands, Tracking.AR.FrameWithHands, Tracking.AR.FrameWithoutHands and Tracking.AR.Render store the corrected ghost frame (`GhostHistory`). The source stores the ghost run through the pixel conversion a second time (`GhostHistoryAsWritten`); see "## Findings".

## Findings

| source | as written | input that shows it | evidently intended | confidence | as-written member | corrected member |
|---|---|---|---|---|---|---|
| scripts/ar.py:208-210 | A ghost frame is built from the newest entry of the pixel histogram, so its points are already pixels. `render_hands` then converts it again with `-x * W + W`, `y * H`. | History [f, f], with f = 10 points at (320, 240), on a 640×480 surface. The velocity is 0, so the ghost is f. The stored point is (-204160, 115200) instead of (320, 240). | The ghost frame goes into the window as it is, continuing the hand's pixel trajectory. | high, not executed | Tracking.GhostHistoryAsWritten, Tracking.GhostReconvertedCounterexample | Tracking.GhostHistory, used by Tracking.AR.AddGhostFrame |

=== FILE: app.dfy ===
/** The part of the frame loop that feeds the physics: the edge checks that build
    the frame's signal set, putting the ball flush against a far edge it touches
    or passes (at or before zero it is only signalled), followed by the ball's
    update with exactly that set. */
module App {
  import opened Forces
  import opened Bodies

  /** The edge check on one axis: the new coordinate and whether a bounce is
      signalled. Past or touching the far edge the box is put flush against it;
      at or before zero it is only signalled. */
  function EdgeAxis(p: real, s: real, limit: real): (r: (real, bool))
    ensures r.0 + s <= limit
    ensures p + s < limit ==> r.0 == p
    ensures p + s >= limit ==> r.0 + s == limit
    ensures r.1 <==> (p + s >= limit || p <= 0.0)
  {
    if p + s >= limit then (limit - s, true)
    else if p <= 0.0 then (p, true)
    else (p, false)
  }

  /** Builds the frame's signal set, starting from the empty set, and corrects the
      ball's position. The two axes are checked independently, so a corner hit
      raises both signals; the set never holds `left` or `up`. */
  method CheckEdges(ball: PhysicsObj, width: real, height: real) returns (signals: set<string>)
    modifies ball`pos
    ensures signals <= {BOUNCE_X, BOUNCE_Y}
    ensures LEFT !in signals && UP !in signals
    ensures (BOUNCE_X in signals) == EdgeAxis(old(ball.pos.x), ball.size.x, width).1
    ensures (BOUNCE_Y in signals) == EdgeAxis(old(ball.pos.y), ball.size.y, height).1
    ensures ball.pos == Vec(EdgeAxis(old(ball.pos.x), ball.size.x, width).0,
                            EdgeAxis(old(ball.pos.y), ball.size.y, height).0)
    ensures ball.pos.x + ball.size.x <= width && ball.pos.y + ball.size.y <= height
  {
    signals := {};
    if ball.pos.x + ball.size.x >= width {
      ball.pos := ball.pos.(x := width - ball.size.x);
      signals := signals + {BOUNCE_X};
    } else if ball.pos.x <= 0.0 {
      signals := signals + {BOUNCE_X};
    }

    if ball.pos.y + ball.size.y >= height {
      ball.pos := ball.pos.(y := height - ball.size.y);
      signals := signals + {BOUNCE_Y};
    } else if ball.pos.y <= 0.0 {
      signals := signals + {BOUNCE_Y};
    }
  }

  /** The physics half of one frame: edge checks, then the ball's update with
      exactly the signals they produced. */
  method Frame(ball: PhysicsObj, width: real, height: real) returns (signals: set<string>)
    requires ball.Valid()
    modifies ball
    ensures ball.Valid()
    ensures signals <= {BOUNCE_X, BOUNCE_Y}
    ensures (BOUNCE_X in signals) == EdgeAxis(old(ball.pos.x), ball.size.x, width).1
    ensures (BOUNCE_Y in signals) == EdgeAxis(old(ball.pos.y), ball.size.y, height).1
    ensures ball.forces == old(ball.forces) && ball.size == old(ball.size)
    ensures ball.terminalVelocities == old(ball.terminalVelocities)
    ensures ball.velocities
         == Tick(old(ball.velocities), ball.terminalVelocities, Values(ball.forces), signals)
    ensures ball.pos.x
         == EdgeAxis(old(ball.pos.x), ball.size.x, width).0 + INTEGRATION_FACTOR * ball.velocities.x
    ensures ball.pos.y
         == EdgeAxis(old(ball.pos.y), ball.size.y, height).0 + INTEGRATION_FACTOR * ball.velocities.y
  {
    signals := CheckEdges(ball, width, height);
    ball.Update(signals);
  }
}

=== FILE: ar.dfy ===
/** Hand tracking on top of the pinch detector: the per-hand sliding window of pixel
    landmark sets, the finite-difference velocity over that window, ghost frames
    that stand in for a hand the detector missed, and the per-frame bookkeeping of
    which hands were seen. The camera and the landmark detector are replaced by a
    per-frame `Capture` input; drawing is left out. */
module Tracking {
  import opened Window
  import opened Pinch

  /** One landmark set: the points of one hand, in the detector's index order. */
  type Frame = seq<Point>

  /** The middle-knuckle landmark, the one the velocity follows, is present. */
  predicate HasMcp(f: Frame) { |f| > MIDDLE_MCP_IDX }

  /** A pixel history: at most HISTOGRAM_SIZE entries, each with a middle knuckle. */
  ghost predicate WellFormed(hist: seq<Frame>)
  {
    |hist| <= HISTOGRAM_SIZE && forall i :: 0 <= i < |hist| ==> HasMcp(hist[i])
  }

  // ----- Pixel conversion -----

  /** A normalized landmark in pixels on a w-by-h surface, mirrored horizontally. */
  function ToPixel(p: Point, w: real, h: real): Point
  {
    (-p.0 * w + w, p.1 * h)
  }

  /** A landmark inside the unit square lands inside the surface. */
  lemma PixelInside(p: Point, w: real, h: real)
    requires 0.0 <= p.0 <= 1.0 && 0.0 <= p.1 <= 1.0 && w >= 0.0 && h >= 0.0
    ensures 0.0 <= ToPixel(p, w, h).0 <= w && 0.0 <= ToPixel(p, w, h).1 <= h
  {
    ScaleWithin(p.0, w);
    ScaleWithin(p.1, h);
    var r := ToPixel(p, w, h);
    var mx := p.0 * w;
    var my := p.1 * h;
    assert 0.0 <= mx <= w;
    assert 0.0 <= my <= h;
    NegMul(p.0, w);
    assert r.0 == w - mx;
    assert r.1 == my;
  }

  lemma NegMul(a: real, b: real)
    ensures -a * b == -(a * b)
  {
  }

  lemma ScaleWithin(a: real, b: real)
    requires 0.0 <= a <= 1.0 && b >= 0.0
    ensures 0.0 <= a * b <= b
  {
    assert a * b <= 1.0 * b;
  }

  /** Scaling by a positive factor keeps strict order. */
  lemma ScaleOrder(x: real, y: real, k: real)
    requires k > 0.0
    ensures x < y <==> x * k < y * k
  {
    var d := y - x;
    assert y * k - x * k == d * k;
    if d > 0.0 {
      assert d * k > 0.0 * k;
    } else {
      assert d * k <= 0.0 * k;
    }
  }

  /** The conversion mirrors x: on a surface of positive width, a landmark further
      right in the camera image lands further left in pixels; y keeps its order. */
  lemma PixelMirrors(p: Point, q: Point, w: real, h: real)
    requires w > 0.0 && h > 0.0
    ensures p.0 < q.0 <==> ToPixel(q, w, h).0 < ToPixel(p, w, h).0
    ensures p.1 < q.1 <==> ToPixel(p, w, h).1 < ToPixel(q, w, h).1
  {
    NegMul(p.0, w);
    NegMul(q.0, w);
    ScaleOrder(p.0, q.0, w);
    ScaleOrder(p.1, q.1, h);
  }

  /** Every landmark of a hand in pixels, in order. */
  function PixelFrame(landmarks: seq<Point>, w: real, h: real): (r: Frame)
    ensures |r| == |landmarks|
    ensures forall i :: 0 <= i < |r| ==> r[i] == ToPixel(landmarks[i], w, h)
  {
    seq(|landmarks|, i requires 0 <= i < |landmarks| => ToPixel(landmarks[i], w, h))
  }

  // ----- Velocity and ghost frames -----

  /** Average per-frame displacement of the middle knuckle across a full window;
      zero until the window is full. */
  function Velocity(hist: seq<Frame>): (v: Point)
    requires |hist| == HISTOGRAM_SIZE ==> HasMcp(hist[0]) && HasMcp(Last(hist))
    ensures |hist| != HISTOGRAM_SIZE ==> v == (0.0, 0.0)
    ensures |hist| == HISTOGRAM_SIZE ==>
              hist[0][MIDDLE_MCP_IDX].0 + HISTOGRAM_SIZE as real * v.0 == Last(hist)[MIDDLE_MCP_IDX].0 &&
              hist[0][MIDDLE_MCP_IDX].1 + HISTOGRAM_SIZE as real * v.1 == Last(hist)[MIDDLE_MCP_IDX].1
  {
    if |hist| == HISTOGRAM_SIZE then
      var start := hist[0][MIDDLE_MCP_IDX];
      var end := Last(hist)[MIDDLE_MCP_IDX];
      ((end.0 - start.0) / HISTOGRAM_SIZE as real, (end.1 - start.1) / HISTOGRAM_SIZE as real)
    else
      (0.0, 0.0)
  }

  /** A ghost landmark set: the given one with every point moved by `v`. */
  function Ghost(last: Frame, v: Point): (r: Frame)
    ensures |r| == |last|
    ensures forall i :: 0 <= i < |r| ==> r[i].0 - last[i].0 == v.0 && r[i].1 - last[i].1 == v.1
  {
    seq(|last|, i requires 0 <= i < |last| => (last[i].0 + v.0, last[i].1 + v.1))
  }

  /** Until the window is full the velocity is zero, so the ghost repeats the newest frame. */
  lemma GhostRepeatsUntilFull(hist: seq<Frame>)
    requires hist != [] && |hist| != HISTOGRAM_SIZE
    ensures Ghost(Last(hist), Velocity(hist)) == Last(hist)
  {
  }

  /** A history after a ghost frame is added to it: the newest frame moved by the
      window's velocity. */
  function GhostHistory(hist: seq<Frame>): (r: seq<Frame>)
    requires hist != [] && WellFormed(hist)
    ensures WellFormed(r) && |r| == Min(|hist| + 1, HISTOGRAM_SIZE)
    ensures Last(r) == Ghost(Last(hist), Velocity(hist))
    ensures forall i :: 0 <= i < |r| - 1 ==> r[i] == hist[|hist| + 1 - |r| + i]
  {
    Slide(hist, Ghost(Last(hist), Velocity(hist)))
  }

  /** The history a ghost frame actually produces in the source: the ghost, whose
      points are already pixels, goes through the normalized-to-pixel conversion
      a second time before it is stored. */
  function GhostHistoryAsWritten(hist: seq<Frame>, w: real, h: real): (r: seq<Frame>)
    requires hist != [] && WellFormed(hist)
    ensures r != [] && Last(r) == PixelFrame(Ghost(Last(hist), Velocity(hist)), w, h)
  {
    Slide(hist, PixelFrame(Ghost(Last(hist), Velocity(hist)), w, h))
  }

  /** Two identical frames of ten points at pixel (320, 240) on a 640x480 surface:
      the intended ghost repeats (320, 240), the stored one is (-204160, 115200). */
  lemma GhostReconvertedCounterexample()
    ensures var f := seq(10, _ => (320.0, 240.0));
            && GhostHistory([f, f]) == [f, f, f]
            && Last(GhostHistoryAsWritten([f, f], 640.0, 480.0))[0] == (-204160.0, 115200.0)
            && GhostHistoryAsWritten([f, f], 640.0, 480.0) != GhostHistory([f, f])
  {
    var f := seq(10, _ => (320.0, 240.0));
    assert Velocity([f, f]) == (0.0, 0.0);
    assert Ghost(f, (0.0, 0.0)) == f;
    var bad := PixelFrame(Ghost(f, (0.0, 0.0)), 640.0, 480.0);
    assert bad[0] == (-204160.0, 115200.0);
    assert bad[0] != f[0];
  }

  // ----- Detections and what a frame reports -----

  /** One hand found by the detector: its label, its normalized landmarks and the
      two distances the pinch detector needs (thumb tip to index tip, wrist to
      middle knuckle). */
  datatype DetectedHand = DetectedHand(hand: Label, landmarks: seq<Point>, rawDist: real, handScale: real)

  /** One camera read: it failed, or it gave the detected hands (none at all is
      the "no hands" case). */
  datatype Capture = ReadFailed | Captured(hands: seq<DetectedHand>)

  /** What a frame reports for one hand. */
  datatype HandReport = HandReport(positionData: Frame, scale: real, clickDist: Dist, clickFlag: bool)

  const DEFAULT_REPORT: HandReport := HandReport([], 1.0, Finite(0.0), false)

  /** What a frame reports, per hand. */
  datatype ArData = ArData(left: HandReport, right: HandReport)
  {
    function Get(l: Label): HandReport { if l == LEFT then left else right }

    function Set(l: Label, r: HandReport): (d: ArData)
      ensures d.Get(l) == r
      ensures forall k: Label :: k != l ==> d.Get(k) == Get(k)
    {
      if l == LEFT then this.(left := r) else this.(right := r)
    }
  }

  const DEFAULTS: ArData := ArData(DEFAULT_REPORT, DEFAULT_REPORT)

  predicate AllHaveMcp(hs: seq<DetectedHand>)
  {
    forall i :: 0 <= i < |hs| ==> HasMcp(hs[i].landmarks)
  }

  /** Whether a hand with label `l` was among the detections. */
  function Seen(hs: seq<DetectedHand>, l: Label): (b: bool)
    ensures b <==> exists i :: 0 <= i < |hs| && hs[i].hand == l
  {
    if hs == [] then false
    else
      assert forall i :: 0 <= i < |hs| - 1 ==> Prefix(hs)[i] == hs[i];
      Last(hs).hand == l || Seen(Prefix(hs), l)
  }

  /** The last detection with label `l`: no later detection carries `l`. */
  function LastOf(hs: seq<DetectedHand>, l: Label): (d: DetectedHand)
    requires Seen(hs, l)
    ensures d.hand == l
    ensures exists i :: 0 <= i < |hs| && hs[i] == d && forall j :: i < j < |hs| ==> hs[j].hand != l
  {
    if Last(hs).hand == l then Last(hs) else LastOf(Prefix(hs), l)
  }

  /** The pixel history of `l` after every detection of `l`, in order, was added. */
  function ObservedPixels(hist: seq<Frame>, hs: seq<DetectedHand>, l: Label, w: real, h: real): (r: seq<Frame>)
    ensures WellFormed(hist) && AllHaveMcp(hs) ==> WellFormed(r)
    ensures !Seen(hs, l) ==> r == hist
    ensures Seen(hs, l) ==> r != [] && Last(r) == PixelFrame(LastOf(hs, l).landmarks, w, h)
  {
    if hs == [] then hist
    else
      var prev := ObservedPixels(hist, Prefix(hs), l, w, h);
      if Last(hs).hand == l then Slide(prev, PixelFrame(Last(hs).landmarks, w, h)) else prev
  }

  /** The detector's state for `l` after every detection of `l`, in order. */
  function ObservedHand(st: HandState, hs: seq<DetectedHand>, l: Label): (r: HandState)
    ensures ValidHand(st) ==> ValidHand(r)
    ensures !Seen(hs, l) ==> r == st
  {
    if hs == [] then st
    else
      var prev := ObservedHand(st, Prefix(hs), l);
      if Last(hs).hand == l then
        Observe(prev, Last(hs).landmarks, Last(hs).rawDist, Last(hs).handScale)
      else prev
  }

  /** The report of a hand that was seen: its newest pixel frame, the scale and
      relative distance of its last detection, and its pinch flag. */
  function SeenReport(hs: seq<DetectedHand>, l: Label, hist: seq<Frame>, st: HandState): (r: HandReport)
    requires Seen(hs, l) && hist != []
    ensures r.positionData == Last(hist) && r.clickFlag == st.isPinched
    ensures exists i :: 0 <= i < |hs| && hs[i].hand == l &&
              r.scale == hs[i].handScale && r.clickDist == RelDist(hs[i].rawDist, hs[i].handScale) &&
              forall j :: i < j < |hs| ==> hs[j].hand != l
  {
    var d := LastOf(hs, l);
    HandReport(Last(hist), d.handScale, RelDist(d.rawDist, d.handScale), st.isPinched)
  }

  /** What the tracker holds for one label: its pixel window, its miss counter,
      its detector state and the current frame's report. */
  datatype Slot = Slot(hist: seq<Frame>, missed: nat, hand: HandState, report: HandReport)

  /** What the detection loop leaves behind for label `l`, given what the label
      held before (whose report is not read). */
  ghost predicate AfterObserve(hs: seq<DetectedHand>, l: Label, w: real, h: real, before: Slot, after: Slot)
  {
    && after.hist == ObservedPixels(before.hist, hs, l, w, h)
    && after.hand == ObservedHand(before.hand, hs, l)
    && after.missed == (if Seen(hs, l) then 0 else before.missed)
    && after.report == (if Seen(hs, l) then SeenReport(hs, l, after.hist, after.hand) else DEFAULT_REPORT)
  }

  /** What a frame with detections leaves behind for label `l`: a seen label is
      observed and its miss counter reset; an unseen one has its counter raised
      and gets a ghost frame while it has two frames of history and fewer than
      HISTOGRAM_SIZE misses. */
  ghost predicate AfterFrame(hs: seq<DetectedHand>, l: Label, w: real, h: real, before: Slot, after: Slot)
  {
    && WellFormed(before.hist)
    && after.hand == ObservedHand(before.hand, hs, l)
    && if Seen(hs, l) then
         && after.hist == ObservedPixels(before.hist, hs, l, w, h)
         && after.missed == 0
         && after.report == SeenReport(hs, l, after.hist, after.hand)
       else
         && after.missed == before.missed + 1
         && after.report == DEFAULT_REPORT
         && after.hist == (if |before.hist| >= 2 && before.missed + 1 < HISTOGRAM_SIZE
                           then GhostHistory(before.hist) else before.hist)
  }

  lemma SlideWellFormed(hist: seq<Frame>, f: Frame)
    requires WellFormed(hist) && HasMcp(f)
    ensures WellFormed(Slide(hist, f))
  {
  }

  /** One more detection, for one label: the detected label is observed and
      reported, every other label keeps what it had. */
  lemma AfterObserveStep(done: seq<DetectedHand>, det: DetectedHand, l: Label, w: real, h: real,
                         before: Slot, a: Slot, b: Slot)
    requires AfterObserve(done, l, w, h, before, a)
    requires l == det.hand ==>
               && b.hist == Slide(a.hist, PixelFrame(det.landmarks, w, h))
               && b.hand == Observe(a.hand, det.landmarks, det.rawDist, det.handScale)
               && b.missed == 0
               && b.report == HandReport(Last(b.hist), det.handScale, RelDist(det.rawDist, det.handScale), b.hand.isPinched)
    requires l != det.hand ==> b == a
    ensures AfterObserve(done + [det], l, w, h, before, b)
  {
    var next := done + [det];
    assert Prefix(next) == done;
    assert Last(next) == det;
    if l == det.hand {
      assert Seen(next, l) && LastOf(next, l) == det;
    } else {
      assert Seen(next, l) == Seen(done, l);
      assert Seen(done, l) ==> LastOf(next, l) == LastOf(done, l);
    }
  }

  class AR {
    var positionHistogram: map<Label, seq<Frame>>
    var handsTracker: map<Label, nat>
    var detector: PinchDetector

    ghost predicate Valid()
      reads this, detector
    {
      detector.Valid() &&
      forall l: Label ::
        l in positionHistogram && l in handsTracker && WellFormed(positionHistogram[l])
    }

    /** Everything the tracker holds for label `l`, with `data`'s report for it. */
    ghost function SlotOf(l: Label, data: ArData): Slot
      reads this, detector
      requires Valid()
    {
      Slot(positionHistogram[l], handsTracker[l], detector.hands[l], data.Get(l))
    }

    /** Every label holds what the detections `done` leave behind from `before`. */
    ghost predicate ObservedSoFar(done: seq<DetectedHand>, w: real, h: real, before: map<Label, Slot>, data: ArData)
      reads this, detector
      requires Valid()
    {
      forall l: Label :: l in before && AfterObserve(done, l, w, h, before[l], SlotOf(l, data))
    }

    /** Empty pixel histories, zero miss counters, a fresh detector. */
    constructor ()
      ensures Valid() && fresh(detector)
      ensures positionHistogram == map[LEFT := [], RIGHT := []]
      ensures handsTracker == map[LEFT := 0, RIGHT := 0]
      ensures detector.hands == map[LEFT := HandState([], 0, false), RIGHT := HandState([], 0, false)]
    {
      positionHistogram := map[LEFT := [], RIGHT := []];
      handsTracker := map[LEFT := 0, RIGHT := 0];
      detector := new PinchDetector();
      new;
      forall l: Label ensures l in positionHistogram && l in handsTracker && WellFormed(positionHistogram[l]) {
        assert l == LEFT || l == RIGHT;
      }
    }

    /** Converts a hand's landmarks to pixels and slides them into its window;
        the other hand's window is untouched. */
    method RenderHands(hand: Label, landmarks: seq<Point>, w: real, h: real)
      requires hand in positionHistogram
      modifies this`positionHistogram
      ensures positionHistogram
           == old(positionHistogram)[hand := Slide(old(positionHistogram[hand]), PixelFrame(landmarks, w, h))]
    {
      var pts: Frame := [];
      for i := 0 to |landmarks|
        invariant |pts| == i
        invariant forall j :: 0 <= j < i ==> pts[j] == ToPixel(landmarks[j], w, h)
      {
        var lm := landmarks[i];
        var xPx := -lm.0 * w + w;
        var yPx := lm.1 * h;
        assert xPx == ToPixel(lm, w, h).0 && yPx == ToPixel(lm, w, h).1;
        pts := pts + [(xPx, yPx)];
      }
      assert pts == PixelFrame(landmarks, w, h);

      var hist := positionHistogram[hand];
      if |hist| < HISTOGRAM_SIZE {
        hist := hist + [pts];
      } else {
        hist := hist[1..];
        hist := hist + [pts];
      }
      positionHistogram := positionHistogram[hand := hist];
    }

    /** Adds a ghost frame for a hand with at least two frames of history: the
        newest frame moved by the window's velocity goes into the window as it is. */
    method AddGhostFrame(hand: Label)
      requires hand in positionHistogram && WellFormed(positionHistogram[hand])
      requires |positionHistogram[hand]| >= 2
      modifies this`positionHistogram
      ensures positionHistogram == old(positionHistogram)[hand := GhostHistory(old(positionHistogram[hand]))]
    {
      var hist := positionHistogram[hand];
      var vel := Velocity(hist);
      var gen := Ghost(Last(hist), vel);
      positionHistogram := positionHistogram[hand := Slide(hist, gen)];
    }

    /** One detected hand: pinch detection on its normalized landmarks, its pixel
        window, its report and its miss counter reset; the other hand keeps
        everything. */
    method ObserveOne(det: DetectedHand, w: real, h: real, data0: ArData,
                      ghost done: seq<DetectedHand>, ghost before: map<Label, Slot>)
      returns (data: ArData)
      requires Valid() && HasMcp(det.landmarks)
      requires ObservedSoFar(done, w, h, before, data0)
      modifies this`positionHistogram, this`handsTracker, detector
      ensures Valid()
      ensures positionHistogram == old(positionHistogram)[det.hand :=
                Slide(old(positionHistogram[det.hand]), PixelFrame(det.landmarks, w, h))]
      ensures handsTracker == old(handsTracker)[det.hand := 0]
      ensures detector.hands == old(detector.hands)[det.hand :=
                Observe(old(detector.hands[det.hand]), det.landmarks, det.rawDist, det.handScale)]
      ensures data == data0.Set(det.hand, HandReport(Last(positionHistogram[det.hand]), det.handScale,
                                                     RelDist(det.rawDist, det.handScale),
                                                     detector.hands[det.hand].isPinched))
      ensures ObservedSoFar(done + [det], w, h, before, data)
    {
      var d := detector.Update(det.hand, det.landmarks, det.rawDist, det.handScale);
      RenderHands(det.hand, det.landmarks, w, h);
      var hist := positionHistogram[det.hand];
      data := data0.Set(det.hand, HandReport(Last(hist), d.scale, d.relDist, d.isPinched));
      handsTracker := handsTracker[det.hand := 0];
      SlideWellFormed(old(positionHistogram[det.hand]), PixelFrame(det.landmarks, w, h));
      assert forall l: Label :: l in old(positionHistogram) && WellFormed(old(positionHistogram[l]));
      forall l: Label ensures AfterObserve(done + [det], l, w, h, before[l], SlotOf(l, data)) {
        AfterObserveStep(done, det, l, w, h, before[l], old(SlotOf(l, data0)), SlotOf(l, data));
      }
    }

    /** The loop over the detected hands, in detection order. Returns the labels seen. */
    method ObserveHands(hs: seq<DetectedHand>, w: real, h: real) returns (data: ArData, seen: seq<Label>)
      requires Valid() && AllHaveMcp(hs)
      modifies this`positionHistogram, this`handsTracker, detector
      ensures Valid()
      ensures forall l: Label :: l in seen <==> Seen(hs, l)
      ensures forall l: Label :: AfterObserve(hs, l, w, h, old(SlotOf(l, DEFAULTS)), SlotOf(l, data))
    {
      data, seen := DEFAULTS, [];
      var i := 0;
      ghost var before := map l: Label :: SlotOf(l, DEFAULTS);
      assert ObservedSoFar(hs[..0], w, h, before, data);
      while i < |hs|
        invariant 0 <= i <= |hs|
        invariant Valid()
        invariant forall l: Label :: l in seen <==> Seen(hs[..i], l)
        invariant forall l: Label :: before[l] == old(SlotOf(l, DEFAULTS))
        invariant ObservedSoFar(hs[..i], w, h, before, data)
      {
        var det := hs[i];
        ghost var done := hs[..i];
        assert hs[..i + 1] == done + [det];

        seen := seen + [det.hand];
        data := ObserveOne(det, w, h, data, done, before);
        forall l: Label ensures l in seen <==> Seen(done + [det], l) {
          assert Prefix(done + [det]) == done;
        }
        i := i + 1;
      }
      assert hs[..|hs|] == hs;
      assert ObservedSoFar(hs, w, h, before, data);
    }

    /** A hand missing from a frame with other detections: its miss counter goes
        up, and while it has two frames of history and fewer than
        HISTOGRAM_SIZE misses, a ghost frame is added. */
    method TrackMissing(hand: Label, seen: seq<Label>)
      requires Valid()
      modifies this`positionHistogram, this`handsTracker
      ensures Valid()
      ensures hand in seen ==>
                positionHistogram == old(positionHistogram) && handsTracker == old(handsTracker)
      ensures hand !in seen ==>
                handsTracker == old(handsTracker)[hand := old(handsTracker[hand]) + 1] &&
                positionHistogram == old(positionHistogram)[hand :=
                  if |old(positionHistogram[hand])| >= 2 && handsTracker[hand] < HISTOGRAM_SIZE
                  then GhostHistory(old(positionHistogram[hand]))
                  else old(positionHistogram[hand])]
    {
      if hand !in seen {
        handsTracker := handsTracker[hand := handsTracker[hand] + 1];
        if |positionHistogram[hand]| >= 2 && handsTracker[hand] < HISTOGRAM_SIZE {
          AddGhostFrame(hand);
        }
      }
      assert forall l: Label :: l in old(positionHistogram) && WellFormed(old(positionHistogram[l]));
    }

    /** A hand in a frame with no detections at all: a ghost frame whenever it
        has two frames of history; its miss counter is neither read nor changed. */
    method GhostWhenNoHands(hand: Label)
      requires Valid()
      modifies this`positionHistogram
      ensures Valid()
      ensures positionHistogram == old(positionHistogram)[hand :=
                if |old(positionHistogram[hand])| >= 2 then GhostHistory(old(positionHistogram[hand]))
                else old(positionHistogram[hand])]
    {
      if |positionHistogram[hand]| >= 2 {
        AddGhostFrame(hand);
      }
      assert forall l: Label :: l in old(positionHistogram) && WellFormed(old(positionHistogram[l]));
    }

    /** A frame with detections: every detection is observed, then each label
        not seen is tracked as missing. */
    method FrameWithHands(hs: seq<DetectedHand>, w: real, h: real) returns (data: ArData)
      requires Valid() && hs != [] && AllHaveMcp(hs)
      modifies this`positionHistogram, this`handsTracker, detector
      ensures Valid()
      ensures forall l: Label :: AfterFrame(hs, l, w, h, old(SlotOf(l, DEFAULTS)), SlotOf(l, data))
    {
      var seen;
      data, seen := ObserveHands(hs, w, h);
      ghost var observed := map l: Label :: SlotOf(l, data);
      TrackMissing(LEFT, seen);
      TrackMissing(RIGHT, seen);
      forall l: Label ensures AfterFrame(hs, l, w, h, old(SlotOf(l, DEFAULTS)), SlotOf(l, data)) {
        assert AfterObserve(hs, l, w, h, old(SlotOf(l, DEFAULTS)), observed[l]);
        assert l == LEFT || l == RIGHT;
      }
    }

    /** A frame with no detections: each label gets a ghost frame if it has the
        history for one; miss counters and detector are left alone. */
    method FrameWithoutHands()
      requires Valid()
      modifies this`positionHistogram
      ensures Valid()
      ensures forall l: Label :: positionHistogram[l] ==
                if |old(positionHistogram[l])| >= 2 then GhostHistory(old(positionHistogram[l]))
                else old(positionHistogram[l])
    {
      GhostWhenNoHands(LEFT);
      GhostWhenNoHands(RIGHT);
      forall l: Label
        ensures positionHistogram[l] ==
                  if |old(positionHistogram[l])| >= 2 then GhostHistory(old(positionHistogram[l]))
                  else old(positionHistogram[l])
      {
        assert l == LEFT || l == RIGHT;
      }
    }

    /** One camera frame. A failed read reports the defaults and changes nothing;
        otherwise the frame goes to the case with or without detections, and a
        frame without any reports the defaults. */
    method Render(capture: Capture, w: real, h: real) returns (data: ArData)
      requires Valid()
      requires capture.Captured? ==> AllHaveMcp(capture.hands)
      modifies this`positionHistogram, this`handsTracker, detector
      ensures Valid()
      ensures capture.ReadFailed? ==>
                data == DEFAULTS && positionHistogram == old(positionHistogram) &&
                handsTracker == old(handsTracker) && detector.hands == old(detector.hands)
      ensures capture.Captured? && capture.hands == [] ==>
                data == DEFAULTS && handsTracker == old(handsTracker) &&
                detector.hands == old(detector.hands) &&
                forall l: Label :: positionHistogram[l] ==
                  if |old(positionHistogram[l])| >= 2 then GhostHistory(old(positionHistogram[l]))
                  else old(positionHistogram[l])
      ensures capture.Captured? && capture.hands != [] ==>
                forall l: Label :: AfterFrame(capture.hands, l, w, h, old(SlotOf(l, DEFAULTS)), SlotOf(l, data))
    {
      data := DEFAULTS;
      if capture.ReadFailed? {
        return;
      }
      if capture.hands != [] {
        data := FrameWithHands(capture.hands, w, h);
      } else {
        FrameWithoutHands();
      }
    }
  }
}

=== FILE: ball.dfy ===
/** The physics body (`PhysicsObj`) and its one concrete kind, the ball: a position,
    a size, a velocity, per-axis terminal velocities and an insertion-ordered map of
    named forces, advanced one frame at a time by `Update`. */
module Bodies {
  import opened Forces

  /** Linear friction taken off vx every frame. */
  const FRICTION: real := 0.1
  /** Factor applied to the velocity when the position is advanced. */
  const INTEGRATION_FACTOR: real := 0.9

  /** A dictionary of forces keyed by name, in insertion order. */
  type NamedForces = seq<(string, Force)>

  ghost predicate DistinctNames(fs: NamedForces)
  {
    forall i, j :: 0 <= i < j < |fs| ==> fs[i].0 != fs[j].0
  }

  function Names(fs: NamedForces): set<string>
  {
    set i | 0 <= i < |fs| :: fs[i].0
  }

  /** The forces of a dictionary, in its iteration order. */
  function Values(fs: NamedForces): (r: seq<Force>)
    ensures |r| == |fs| && forall i :: 0 <= i < |fs| ==> r[i] == fs[i].1
  {
    if fs == [] then [] else [fs[0].1] + Values(fs[1..])
  }

  /** Dictionary assignment `fs[name] = f`: a registered name keeps its place and
      gets the new force; a new name goes at the end. */
  function Put(fs: NamedForces, name: string, f: Force): (r: NamedForces)
    ensures Names(r) == Names(fs) + {name}
    ensures name !in Names(fs) ==> r == fs + [(name, f)]
  {
    if fs == [] then
      NamesCons((name, f), []);
      [(name, f)]
    else if fs[0].0 == name then
      NamesCons((name, f), fs[1..]);
      NamesCons(fs[0], fs[1..]);
      assert fs == [fs[0]] + fs[1..];
      [(name, f)] + fs[1..]
    else
      NamesCons(fs[0], Put(fs[1..], name, f));
      NamesCons(fs[0], fs[1..]);
      assert fs == [fs[0]] + fs[1..];
      [fs[0]] + Put(fs[1..], name, f)
  }

  /** A dictionary without repeated names: its tail has none either, and its
      first name does not recur in the tail. */
  lemma DistinctTail(fs: NamedForces)
    requires fs != [] && DistinctNames(fs)
    ensures DistinctNames(fs[1..]) && fs[0].0 !in Names(fs[1..])
  {
    var tail := fs[1..];
    forall i, j | 0 <= i < j < |tail| ensures tail[i].0 != tail[j].0 {
      assert tail[i] == fs[i + 1] && tail[j] == fs[j + 1];
    }
    forall k | 0 <= k < |tail| ensures tail[k].0 != fs[0].0 {
      assert fs[k + 1] == tail[k];
    }
  }

  /** On a dictionary without repeated names, assignment keeps names distinct. */
  lemma {:induction false} PutKeepsDistinct(fs: NamedForces, name: string, f: Force)
    requires DistinctNames(fs)
    ensures DistinctNames(Put(fs, name, f))
  {
    if fs != [] {
      var tail := fs[1..];
      DistinctTail(fs);
      assert fs == [fs[0]] + tail;
      if fs[0].0 != name {
        PutKeepsDistinct(tail, name, f);
        var rest := Put(tail, name, f);
        NamesCons(fs[0], rest);
        assert Put(fs, name, f) == [fs[0]] + rest;
        forall i, j | 0 <= i < j < |rest| + 1
          ensures ([fs[0]] + rest)[i].0 != ([fs[0]] + rest)[j].0
        {
          if i == 0 {
            assert rest[j - 1].0 in Names(rest);
          }
        }
      } else {
        var r := Put(fs, name, f);
        assert r == [(name, f)] + tail;
        forall i, j | 0 <= i < j < |r| ensures r[i].0 != r[j].0 {
          if i == 0 {
            assert r[j] == fs[j];
          } else {
            assert r[i] == fs[i] && r[j] == fs[j];
          }
        }
      }
    }
  }

  /** On a dictionary without repeated names, assigning to a registered name
      replaces its force where it stands and leaves every other entry alone. */
  lemma {:induction false} PutInPlace(fs: NamedForces, name: string, f: Force)
    requires DistinctNames(fs) && name in Names(fs)
    ensures |Put(fs, name, f)| == |fs|
    ensures forall i :: 0 <= i < |fs| ==>
              Put(fs, name, f)[i] == (if fs[i].0 == name then (name, f) else fs[i])
  {
    var tail := fs[1..];
    DistinctTail(fs);
    NamesCons(fs[0], tail);
    assert fs == [fs[0]] + tail;
    if fs[0].0 != name {
      PutInPlace(tail, name, f);
      assert Put(fs, name, f) == [fs[0]] + Put(tail, name, f);
    } else {
      var r := Put(fs, name, f);
      assert r == [(name, f)] + tail;
      forall i | 0 <= i < |fs| ensures r[i] == (if fs[i].0 == name then (name, f) else fs[i]) {
        if i > 0 {
          assert fs[i] == tail[i - 1];
        }
      }
    }
  }

  lemma NamesCons(p: (string, Force), rest: NamedForces)
    ensures Names([p] + rest) == {p.0} + Names(rest)
  {
    var s := [p] + rest;
    forall n | n in Names(rest) ensures n in Names(s) {
      var i :| 0 <= i < |rest| && rest[i].0 == n;
      assert s[i + 1].0 == n;
    }
    assert s[0].0 == p.0;
  }

  /** Clamping one velocity component to [-t, t], branch for branch as the source:
      a non-negative value is capped at t, a negative one at -t. */
  function Clamp(v: real, t: real): (r: real)
    ensures t >= 0.0 ==> -t <= r <= t
    ensures t >= 0.0 && -t <= v <= t ==> r == v
    ensures t >= 0.0 && v > t ==> r == t
    ensures t >= 0.0 && v < -t ==> r == -t
    ensures t >= 0.0 ==> Abs(r) <= Abs(v) && (v >= 0.0 ==> r >= 0.0) && (v <= 0.0 ==> r <= 0.0)
  {
    if v >= 0.0 then (if t <= v then t else v)
    else (if -t >= v then -t else v)
  }

  /** Linear friction on vx: FRICTION closer to zero, stopping at zero. */
  function Friction(v: real): (r: real)
    ensures Abs(r) <= Abs(v)
    ensures (v >= 0.0 ==> r >= 0.0) && (v <= 0.0 ==> r <= 0.0)
    ensures r == 0.0 || Abs(v) - Abs(r) == FRICTION
    ensures Abs(v) >= FRICTION ==> Abs(v) - Abs(r) == FRICTION
    ensures Abs(v) <= FRICTION ==> r == 0.0
  {
    if v >= 0.0 then (if 0.0 >= v - FRICTION then 0.0 else v - FRICTION)
    else (if 0.0 <= v + FRICTION then 0.0 else v + FRICTION)
  }

  /** The velocity at the end of a frame: every force in order, then the clamp
      on both axes, then friction on vx only. With non-negative terminal
      velocities both components end within their bound. */
  function Tick(v: Vec, tv: Vec, fs: seq<Force>, signals: set<string>): (r: Vec)
    ensures tv.x >= 0.0 ==> Abs(r.x) <= tv.x
    ensures tv.y >= 0.0 ==> Abs(r.y) <= tv.y
    ensures var a := ApplyAll(fs, v, signals);
            r.y == Clamp(a.y, tv.y) && Abs(r.x) <= Abs(Clamp(a.x, tv.x))
  {
    var a := ApplyAll(fs, v, signals);
    Vec(Friction(Clamp(a.x, tv.x)), Clamp(a.y, tv.y))
  }

  /** With gravity as the only force and vy below its bound, a frame strictly
      raises vy and keeps it within the bound; once the pull would carry vy to
      the bound or past it, vy is clamped exactly at the bound. */
  lemma GravityTickRaisesVy(pull: real, v: Vec, tv: Vec, signals: set<string>)
    requires pull > 0.0 && -tv.y <= v.y < tv.y
    ensures v.y < Tick(v, tv, [Gravity(pull)], signals).y <= tv.y
    ensures v.y + pull >= tv.y ==> Tick(v, tv, [Gravity(pull)], signals).y == tv.y
  {
    assert [Gravity(pull)][1..] == [];
    assert ApplyAll([Gravity(pull)], v, signals) == Vec(v.x, v.y + pull);
  }

  class PhysicsObj {
    var forces: NamedForces
    var pos: Vec
    var size: Vec
    var velocities: Vec
    var terminalVelocities: Vec

    /** A force dictionary never holds a name twice. */
    ghost predicate Valid()
      reads this
    {
      DistinctNames(forces)
    }

    /** A bare body: no forces, everything at zero, terminal velocities as given. */
    constructor Init(terminalVelocities: Vec)
      ensures Valid()
      ensures forces == [] && pos == Vec(0.0, 0.0) && size == Vec(0.0, 0.0)
      ensures velocities == Vec(0.0, 0.0) && this.terminalVelocities == terminalVelocities
    {
      forces := [];
      pos := Vec(0.0, 0.0);
      size := Vec(0.0, 0.0);
      velocities := Vec(0.0, 0.0);
      this.terminalVelocities := terminalVelocities;
    }

    /** A ball: the given position, size and terminal velocities, at rest, holding
        every given (name, force) pair in the given order. */
    constructor Ball(pos: Vec, size: Vec, terminalVelocities: Vec, initial: NamedForces)
      requires DistinctNames(initial)
      ensures Valid()
      ensures this.pos == pos && this.size == size && velocities == Vec(0.0, 0.0)
      ensures this.terminalVelocities == terminalVelocities && forces == initial
    {
      forces := [];
      this.pos := Vec(0.0, 0.0);
      this.size := Vec(0.0, 0.0);
      velocities := Vec(0.0, 0.0);
      this.terminalVelocities := terminalVelocities;
      new;
      this.pos := pos;
      this.size := size;
      var i := 0;
      while i < |initial|
        invariant 0 <= i <= |initial|
        invariant forces == initial[..i]
        invariant this.pos == pos && this.size == size && velocities == Vec(0.0, 0.0)
        invariant this.terminalVelocities == terminalVelocities
      {
        assert initial[i].0 !in Names(initial[..i]);
        PutKeepsDistinct(forces, initial[i].0, initial[i].1);
        forces := Put(forces, initial[i].0, initial[i].1);
        assert initial[..i + 1] == initial[..i] + [initial[i]];
        i := i + 1;
      }
      assert initial[..|initial|] == initial;
    }

    /** One force's `apply_force`: the velocity changes in place, nothing else does. */
    method ApplyForce(f: Force, signals: set<string>)
      modifies this`velocities
      ensures velocities == Apply(f, old(velocities), signals)
    {
      match f
      case Gravity(pull) =>
        velocities := velocities.(y := velocities.y + pull);
      case Bounce(damping) =>
        if BOUNCE_X in signals {
          velocities := velocities.(x := velocities.x * -damping);
        } else if BOUNCE_Y in signals {
          velocities := velocities.(y := velocities.y * -damping);
        }
      case Wind(mag, axis) =>
        if axis == WIND_X {
          velocities := velocities.(x := velocities.x + mag * (if LEFT in signals then -1.0 else 1.0));
        } else if axis == WIND_Y {
          velocities := velocities.(y := velocities.y + mag * (if UP in signals then -1.0 else 1.0));
        }
    }

    /** The force loop of `update`: every registered force, once each, in
        insertion order; only the velocity changes. */
    method ApplyForces(signals: set<string>)
      modifies this`velocities
      ensures velocities == ApplyAll(Values(forces), old(velocities), signals)
    {
      var i := 0;
      while i < |forces|
        invariant 0 <= i <= |forces|
        invariant velocities == ApplyAll(Values(forces)[..i], old(velocities), signals)
      {
        ghost var done := Values(forces)[..i];
        ApplyForce(forces[i].1, signals);
        ApplyAllSnoc(done, forces[i].1, old(velocities), signals);
        assert Values(forces)[..i + 1] == done + [forces[i].1];
        i := i + 1;
      }
      assert Values(forces)[..|forces|] == Values(forces);
    }

    /** The clamp to the terminal velocities on both axes, then friction on vx. */
    method Limit()
      modifies this`velocities
      ensures velocities == Vec(Friction(Clamp(old(velocities.x), terminalVelocities.x)),
                                Clamp(old(velocities.y), terminalVelocities.y))
    {
      ghost var a := velocities;
      if velocities.x >= 0.0 {
        velocities := velocities.(x := if terminalVelocities.x <= velocities.x then terminalVelocities.x else velocities.x);
      } else {
        velocities := velocities.(x := if -terminalVelocities.x >= velocities.x then -terminalVelocities.x else velocities.x);
      }
      if velocities.y >= 0.0 {
        velocities := velocities.(y := if terminalVelocities.y <= velocities.y then terminalVelocities.y else velocities.y);
      } else {
        velocities := velocities.(y := if -terminalVelocities.y >= velocities.y then -terminalVelocities.y else velocities.y);
      }
      assert velocities == Vec(Clamp(a.x, terminalVelocities.x), Clamp(a.y, terminalVelocities.y));

      if velocities.x >= 0.0 {
        velocities := velocities.(x := if 0.0 >= velocities.x - FRICTION then 0.0 else velocities.x - FRICTION);
      } else {
        velocities := velocities.(x := if 0.0 <= velocities.x + FRICTION then 0.0 else velocities.x + FRICTION);
      }
    }

    /** One frame of the ball: forces in insertion order, clamp, friction, then the
        position moves by INTEGRATION_FACTOR times the final velocity. Size,
        terminal velocities and forces are left as they were. */
    method Update(signals: set<string>)
      requires Valid()
      modifies this
      ensures Valid()
      ensures forces == old(forces) && size == old(size)
      ensures terminalVelocities == old(terminalVelocities)
      ensures velocities == Tick(old(velocities), terminalVelocities, Values(forces), signals)
      ensures pos.x == old(pos.x) + INTEGRATION_FACTOR * velocities.x
      ensures pos.y == old(pos.y) + INTEGRATION_FACTOR * velocities.y
    {
      ApplyForces(signals);
      Limit();
      pos := pos.(x := pos.x + ((pos.x + velocities.x) - pos.x) * INTEGRATION_FACTOR);
      pos := pos.(y := pos.y + ((pos.y + velocities.y) - pos.y) * INTEGRATION_FACTOR);
    }
  }
}

=== FILE: forces.dfy ===
/** The forces that act on a body's velocity. The source's `Force` base class with
    its abstract `apply_force` and the subclasses `Gravity`, `Bounce` and `Wind`
    become one closed variant and one dispatch function, `Apply`. */
module Forces {

  /** A pair of reals: a body's position, size, velocity or terminal velocity. */
  datatype Vec = Vec(x: real, y: real)

  function Abs(a: real): real { if a < 0.0 then -a else a }

  // Signals the frame loop hands to the forces.
  const BOUNCE_X: string := "apply_bounce_x"
  const BOUNCE_Y: string := "apply_bounce_y"
  const LEFT: string := "left"
  const UP: string := "up"

  // The axis names a wind force may carry.
  const WIND_X: string := "wind_x"
  const WIND_Y: string := "wind_y"

  /** Every variant carries the one scalar `force` that the base constructor
      stores unchanged; a wind also names the axis it blows along. */
  datatype Force =
    | Gravity(force: real)
    | Bounce(force: real)
    | Wind(force: real, windType: string)

  /** The effect of one force on a velocity under the frame's signals.
      No force touches both axes. */
  function Apply(f: Force, v: Vec, signals: set<string>): (r: Vec)
    ensures r.x == v.x || r.y == v.y
  {
    match f
    case Gravity(pull) => v.(y := v.y + pull)
    case Bounce(damping) =>
      if BOUNCE_X in signals then v.(x := v.x * -damping)
      else if BOUNCE_Y in signals then v.(y := v.y * -damping)
      else v
    case Wind(mag, axis) =>
      if axis == WIND_X then v.(x := v.x + mag * (if LEFT in signals then -1.0 else 1.0))
      else if axis == WIND_Y then v.(y := v.y + mag * (if UP in signals then -1.0 else 1.0))
      else v
  }

  /** Applying the forces one after the other, first to last. */
  function ApplyAll(fs: seq<Force>, v: Vec, signals: set<string>): Vec
  {
    if fs == [] then v else ApplyAll(fs[1..], Apply(fs[0], v, signals), signals)
  }

  /** Applying a list and then one more force is applying the extended list:
      each force acts exactly once, in list order. */
  lemma {:induction false} ApplyAllSnoc(fs: seq<Force>, f: Force, v: Vec, signals: set<string>)
    ensures ApplyAll(fs + [f], v, signals) == Apply(f, ApplyAll(fs, v, signals), signals)
  {
    if fs != [] {
      assert (fs + [f])[1..] == fs[1..] + [f];
      ApplyAllSnoc(fs[1..], f, Apply(fs[0], v, signals), signals);
    }
  }

  /** Applying two lists one after the other is applying their concatenation. */
  lemma {:induction false} ApplyAllAppend(fs: seq<Force>, gs: seq<Force>, v: Vec, signals: set<string>)
    ensures ApplyAll(fs + gs, v, signals) == ApplyAll(gs, ApplyAll(fs, v, signals), signals)
  {
    if fs != [] {
      assert (fs + gs)[1..] == fs[1..] + gs;
      ApplyAllAppend(fs[1..], gs, Apply(fs[0], v, signals), signals);
    } else {
      assert fs + gs == gs;
    }
  }

  // ----- Gravity -----

  /** Gravity adds its pull to vy, leaves vx alone, and ignores the signals. */
  lemma GravityPulls(pull: real, v: Vec, signals: set<string>, others: set<string>)
    ensures Apply(Gravity(pull), v, signals) == Apply(Gravity(pull), v, others)
    ensures Apply(Gravity(pull), v, signals).x == v.x
    ensures Apply(Gravity(pull), v, signals).y - v.y == pull
  {
  }

  /** n copies of one gravity force. */
  function Gravities(pull: real, n: nat): seq<Force>
  {
    if n == 0 then [] else [Gravity(pull)] + Gravities(pull, n - 1)
  }

  /** n gravity applications add n times the pull to vy. */
  lemma {:induction false} GravityRepeated(pull: real, v: Vec, signals: set<string>, n: nat)
    ensures ApplyAll(Gravities(pull, n), v, signals) == Vec(v.x, v.y + n as real * pull)
    decreases n
  {
    if n > 0 {
      assert Gravities(pull, n)[1..] == Gravities(pull, n - 1);
      GravityRepeated(pull, Apply(Gravity(pull), v, signals), signals, n - 1);
    }
  }

  /** Starting c higher in vy ends c higher after any number of gravity applications. */
  lemma {:induction false} GravityShift(pull: real, v: Vec, signals: set<string>, n: nat, c: real)
    ensures ApplyAll(Gravities(pull, n), v.(y := v.y + c), signals).y
         == ApplyAll(Gravities(pull, n), v, signals).y + c
    decreases n
  {
    if n > 0 {
      assert Gravities(pull, n)[1..] == Gravities(pull, n - 1);
      var u := Apply(Gravity(pull), v, signals);
      assert Apply(Gravity(pull), v.(y := v.y + c), signals) == u.(y := u.y + c);
      GravityShift(pull, u, signals, n - 1, c);
    }
  }

  /** With a positive pull, more gravity applications give a strictly larger vy. */
  lemma {:induction false} GravityIncreasing(pull: real, v: Vec, signals: set<string>, m: nat, n: nat)
    requires pull > 0.0 && m < n
    ensures ApplyAll(Gravities(pull, m), v, signals).y < ApplyAll(Gravities(pull, n), v, signals).y
    decreases n
  {
    // n applications from v are n - 1 applications from v moved up by one pull.
    assert Gravities(pull, n)[1..] == Gravities(pull, n - 1);
    assert Apply(Gravity(pull), v, signals) == v.(y := v.y + pull);
    GravityShift(pull, v, signals, n - 1, pull);
    if m < n - 1 {
      GravityIncreasing(pull, v, signals, m, n - 1);
    }
  }

  // ----- Bounce -----

  /** A bounce checks the x signal first and reflects at most one axis:
      x when `apply_bounce_x` is present (whatever else is), otherwise y when
      `apply_bounce_y` is present, otherwise nothing. */
  lemma BounceReflectsOneAxis(damping: real, v: Vec, signals: set<string>)
    ensures var r := Apply(Bounce(damping), v, signals);
            && (BOUNCE_X in signals ==> r == Vec(-damping * v.x, v.y))
            && (BOUNCE_X !in signals && BOUNCE_Y in signals ==> r == Vec(v.x, -damping * v.y))
            && (BOUNCE_X !in signals && BOUNCE_Y !in signals ==> r == v)
  {
  }

  /** A corner hit with both signals reflects only vx. */
  lemma BounceCornerReflectsX(damping: real, v: Vec)
    ensures Apply(Bounce(damping), v, {BOUNCE_X, BOUNCE_Y}) == Vec(-damping * v.x, v.y)
  {
  }

  /** v = (3, -2), damping 0.9, signal apply_bounce_x gives v = (-2.7, -2). */
  lemma BounceExample()
    ensures Apply(Bounce(0.9), Vec(3.0, -2.0), {BOUNCE_X}) == Vec(-2.7, -2.0)
  {
  }

  /** With damping in [0, 1] a bounce never makes either component larger in
      magnitude, and a reflected component does not keep its sign. */
  lemma BounceDampens(damping: real, v: Vec, signals: set<string>)
    requires 0.0 <= damping <= 1.0
    ensures var r := Apply(Bounce(damping), v, signals);
            && Abs(r.x) <= Abs(v.x) && Abs(r.y) <= Abs(v.y)
            && (BOUNCE_X in signals ==> r.x * v.x <= 0.0)
  {
    var r := Apply(Bounce(damping), v, signals);
    if BOUNCE_X in signals {
      ScaleShrinks(v.x, damping);
    } else if BOUNCE_Y in signals {
      ScaleShrinks(v.y, damping);
    }
  }

  lemma ScaleShrinks(a: real, d: real)
    requires 0.0 <= d <= 1.0
    ensures Abs(a * -d) <= Abs(a) && (a * -d) * a <= 0.0
  {
    if a >= 0.0 {
      assert a * d <= a * 1.0;
      assert (a * -d) * a == -(d * (a * a));
    } else {
      assert (-a) * d <= (-a) * 1.0;
      assert (a * -d) * a == -(d * (a * a));
    }
  }

  // ----- Wind -----

  /** A horizontal wind pushes vx by its force, negated when `left` is signalled;
      it ignores `up` and never touches vy. */
  lemma WindX(mag: real, v: Vec, signals: set<string>)
    ensures var r := Apply(Wind(mag, WIND_X), v, signals);
            && r.y == v.y
            && r.x - v.x == (if LEFT in signals then -mag else mag)
            && r == Apply(Wind(mag, WIND_X), v, signals - {UP})
  {
  }

  /** A vertical wind pushes vy by its force, negated when `up` is signalled;
      it ignores `left` and never touches vx. */
  lemma WindY(mag: real, v: Vec, signals: set<string>)
    ensures var r := Apply(Wind(mag, WIND_Y), v, signals);
            && r.x == v.x
            && r.y - v.y == (if UP in signals then -mag else mag)
            && r == Apply(Wind(mag, WIND_Y), v, signals - {LEFT})
  {
  }

  /** A wind of any other type has no effect. */
  lemma WindOtherType(mag: real, axis: string, v: Vec, signals: set<string>)
    requires axis != WIND_X && axis != WIND_Y
    ensures Apply(Wind(mag, axis), v, signals) == v
  {
  }

  /** Two forces in a row: the second acts on the first one's result. */
  lemma ApplyTwo(f: Force, g: Force, v: Vec, signals: set<string>)
    ensures ApplyAll([f, g], v, signals) == Apply(g, Apply(f, v, signals), signals)
  {
    var u := Apply(f, v, signals);
    assert [f, g][1..] == [g];
    assert [g][1..] == [];
    assert ApplyAll([f, g], v, signals) == ApplyAll([g], u, signals);
    assert ApplyAll([g], u, signals) == ApplyAll([], Apply(g, u, signals), signals);
  }

  /** A horizontal and a vertical wind give the same velocity in either order. */
  lemma WindsCommute(a: real, b: real, v: Vec, signals: set<string>)
    ensures ApplyAll([Wind(a, WIND_X), Wind(b, WIND_Y)], v, signals)
         == ApplyAll([Wind(b, WIND_Y), Wind(a, WIND_X)], v, signals)
  {
    ApplyTwo(Wind(a, WIND_X), Wind(b, WIND_Y), v, signals);
    ApplyTwo(Wind(b, WIND_Y), Wind(a, WIND_X), v, signals);
  }

  /** Registration order matters for gravity against a bounce on the same axis:
      from rest with `apply_bounce_y`, gravity-then-bounce differs from
      bounce-then-gravity. */
  lemma GravityBounceOrderMatters()
    ensures ApplyAll([Gravity(0.1), Bounce(0.9)], Vec(0.0, 0.0), {BOUNCE_Y})
         != ApplyAll([Bounce(0.9), Gravity(0.1)], Vec(0.0, 0.0), {BOUNCE_Y})
  {
    var s := {BOUNCE_Y};
    assert BOUNCE_X !in s;
    ApplyTwo(Gravity(0.1), Bounce(0.9), Vec(0.0, 0.0), s);
    ApplyTwo(Bounce(0.9), Gravity(0.1), Vec(0.0, 0.0), s);
    assert ApplyAll([Gravity(0.1), Bounce(0.9)], Vec(0.0, 0.0), s) == Vec(0.0, -0.09);
    assert ApplyAll([Bounce(0.9), Gravity(0.1)], Vec(0.0, 0.0), s) == Vec(0.0, 0.1);
  }
}

=== FILE: pinch.dfy ===
/** The pinch detector: per hand, a hysteresis and debounce state machine that turns
    the thumb-to-index distance, relative to the hand's size, into a pinched flag.
    The distances themselves (Euclidean norms of landmark differences) are inputs. */
module Pinch {
  import opened Window

  const MIDDLE_MCP_IDX: nat := 9

  /** Enter a pinch below this relative distance. */
  const PINCH_ON_THRESH: real := 0.15
  /** Leave a pinch above this relative distance. */
  const PINCH_OFF_THRESH: real := 0.20
  /** Debounce bound: the counter lives in [-PINCH_FRAMES_REQ, PINCH_FRAMES_REQ]. */
  const PINCH_FRAMES_REQ: int := 3

  datatype Label = LEFT | RIGHT

  /** A 2D landmark, normalized or in pixels. */
  type Point = (real, real)

  /** A relative distance; infinite when the hand's reference length is zero. */
  datatype Dist = Finite(value: real) | Infinite

  function RelDist(rawDist: real, handScale: real): (r: Dist)
    ensures r.Infinite? <==> !(handScale > 0.0)
    ensures r.Finite? ==> r.value * handScale == rawDist
  {
    if handScale > 0.0 then Finite(rawDist / handScale) else Infinite
  }

  /** A frame that pushes an unpinched hand toward pinching. */
  predicate IsOn(d: Dist) { d.Finite? && d.value < PINCH_ON_THRESH }
  /** A frame that pushes a pinched hand toward releasing. */
  predicate IsOff(d: Dist) { d.Infinite? || d.value > PINCH_OFF_THRESH }

  /** The counter and the flag of one hand. */
  datatype Counter = Counter(count: int, pinched: bool)

  const INITIAL: Counter := Counter(0, false)

  /** The states the detector can be in: counter within bounds, strictly below
      the top while unpinched and strictly above the bottom while pinched. */
  predicate Reachable(s: Counter)
  {
    -PINCH_FRAMES_REQ <= s.count <= PINCH_FRAMES_REQ &&
    (if s.pinched then s.count > -PINCH_FRAMES_REQ else s.count < PINCH_FRAMES_REQ)
  }

  /** One frame of the hysteresis and debounce logic. */
  function PinchStep(s: Counter, rel: Dist): (r: Counter)
    // the stored counter always lies in [-3, 3]
    ensures -PINCH_FRAMES_REQ <= r.count <= PINCH_FRAMES_REQ
    // the flag is set exactly when the counter reaches the top, cleared exactly
    // when it reaches the bottom
    ensures !s.pinched ==> (r.pinched <==> r.count >= PINCH_FRAMES_REQ)
    ensures s.pinched ==> (!r.pinched <==> r.count <= -PINCH_FRAMES_REQ)
    // from a reachable state the counter only climbs by one on an "on" frame
    // while unpinched, and only falls by one on an "off" frame while pinched
    ensures Reachable(s) && !s.pinched ==>
              r.count == s.count + (if IsOn(rel) then 1 else 0)
    ensures Reachable(s) && s.pinched ==>
              r.count == s.count - (if IsOff(rel) then 1 else 0)
    ensures Reachable(s) ==> Reachable(r)
  {
    var pc :=
      if s.pinched then (if IsOff(rel) then s.count - 1 else s.count)
      else (if IsOn(rel) then s.count + 1 else s.count);
    var clamped :=
      if PINCH_FRAMES_REQ <= pc then PINCH_FRAMES_REQ
      else if pc <= -PINCH_FRAMES_REQ then -PINCH_FRAMES_REQ
      else pc;
    if !s.pinched && clamped >= PINCH_FRAMES_REQ then Counter(clamped, true)
    else if s.pinched && clamped <= -PINCH_FRAMES_REQ then Counter(clamped, false)
    else Counter(clamped, s.pinched)
  }

  /** A zero hand scale makes the frame infinite, which never moves an unpinched
      hand toward pinching and always counts as a release frame. */
  lemma ZeroScaleNeverPinches(rawDist: real, s: Counter)
    requires Reachable(s)
    ensures !s.pinched ==> PinchStep(s, RelDist(rawDist, 0.0)) == s
    ensures s.pinched ==> PinchStep(s, RelDist(rawDist, 0.0)).count == s.count - 1
  {
  }

  /** The detector over a run of frames. */
  function PinchRun(s: Counter, rels: seq<Dist>): Counter
  {
    if rels == [] then s else PinchStep(PinchRun(s, Prefix(rels)), Last(rels))
  }

  function CountOn(rels: seq<Dist>): nat
  {
    if rels == [] then 0 else CountOn(Prefix(rels)) + (if IsOn(Last(rels)) then 1 else 0)
  }

  function CountOff(rels: seq<Dist>): nat
  {
    if rels == [] then 0 else CountOff(Prefix(rels)) + (if IsOff(Last(rels)) then 1 else 0)
  }

  lemma RunSnoc(s: Counter, rels: seq<Dist>, d: Dist)
    ensures PinchRun(s, rels + [d]) == PinchStep(PinchRun(s, rels), d)
    ensures CountOn(rels + [d]) == CountOn(rels) + (if IsOn(d) then 1 else 0)
    ensures CountOff(rels + [d]) == CountOff(rels) + (if IsOff(d) then 1 else 0)
  {
    assert Prefix(rels + [d]) == rels;
  }

  /** An unpinched hand stays unpinched while fewer on-frames than it needs have
      arrived, and its counter is the old one plus the on-frames, however the
      other frames fall in between: nothing resets the counter. */
  lemma {:induction false} StaysUnpinched(c: int, rels: seq<Dist>)
    requires -PINCH_FRAMES_REQ <= c && c + CountOn(rels) < PINCH_FRAMES_REQ
    ensures PinchRun(Counter(c, false), rels) == Counter(c + CountOn(rels), false)
  {
    if rels != [] {
      var init := Prefix(rels);
      RunSnoc(Counter(c, false), init, Last(rels));
      assert init + [Last(rels)] == rels;
      StaysUnpinched(c, init);
    }
  }

  /** ...and it becomes pinched on exactly the on-frame that brings its counter to
      the top. */
  lemma PinchesOnFrame(c: int, rels: seq<Dist>, d: Dist)
    requires -PINCH_FRAMES_REQ <= c && c + CountOn(rels) == PINCH_FRAMES_REQ - 1 && IsOn(d)
    ensures PinchRun(Counter(c, false), rels + [d]) == Counter(PINCH_FRAMES_REQ, true)
  {
    StaysUnpinched(c, rels);
    RunSnoc(Counter(c, false), rels, d);
  }

  /** A pinched hand stays pinched while fewer off-frames than it needs have
      arrived; its counter is the old one minus the off-frames. */
  lemma {:induction false} StaysPinched(c: int, rels: seq<Dist>)
    requires c <= PINCH_FRAMES_REQ && c - CountOff(rels) > -PINCH_FRAMES_REQ
    ensures PinchRun(Counter(c, true), rels) == Counter(c - CountOff(rels), true)
  {
    if rels != [] {
      var init := Prefix(rels);
      RunSnoc(Counter(c, true), init, Last(rels));
      assert init + [Last(rels)] == rels;
      StaysPinched(c, init);
    }
  }

  /** ...and it releases on exactly the off-frame that brings its counter to the
      bottom. */
  lemma ReleasesOnFrame(c: int, rels: seq<Dist>, d: Dist)
    requires c <= PINCH_FRAMES_REQ && c - CountOff(rels) == 1 - PINCH_FRAMES_REQ && IsOff(d)
    ensures PinchRun(Counter(c, true), rels + [d]) == Counter(-PINCH_FRAMES_REQ, false)
  {
    StaysPinched(c, rels);
    RunSnoc(Counter(c, true), rels, d);
  }

  /** From the initial state the hand is pinched exactly on the third on-frame. */
  lemma FirstPinchOnThirdFrame(rels: seq<Dist>, d: Dist)
    requires CountOn(rels) == 2 && IsOn(d)
    ensures !PinchRun(INITIAL, rels).pinched
    ensures PinchRun(INITIAL, rels + [d]) == Counter(3, true)
  {
    StaysUnpinched(0, rels);
    PinchesOnFrame(0, rels, d);
  }

  /** Right after a pinch the counter sits at the top, so a release needs six
      off-frames; right after a release it sits at the bottom, so the next pinch
      needs six on-frames. */
  lemma LaterFlipsNeedSixFrames(rels: seq<Dist>, d: Dist)
    ensures CountOff(rels) == 5 && IsOff(d) ==>
              PinchRun(Counter(3, true), rels) == Counter(-2, true) &&
              PinchRun(Counter(3, true), rels + [d]) == Counter(-3, false)
    ensures CountOn(rels) == 5 && IsOn(d) ==>
              PinchRun(Counter(-3, false), rels) == Counter(2, false) &&
              PinchRun(Counter(-3, false), rels + [d]) == Counter(3, true)
  {
    if CountOff(rels) == 5 && IsOff(d) {
      StaysPinched(3, rels);
      ReleasesOnFrame(3, rels, d);
    }
    if CountOn(rels) == 5 && IsOn(d) {
      StaysUnpinched(-3, rels);
      PinchesOnFrame(-3, rels, d);
    }
  }

  /** Relative distances 0.10, 0.10, 0.10 from the initial state pinch on the
      third frame; one frame at 0.25 while pinched lowers the counter but does
      not release. */
  lemma HysteresisExample()
    ensures PinchRun(INITIAL, [Finite(0.10), Finite(0.10)]) == Counter(2, false)
    ensures PinchRun(INITIAL, [Finite(0.10), Finite(0.10), Finite(0.10)]) == Counter(3, true)
    ensures PinchStep(Counter(3, true), Finite(0.25)) == Counter(2, true)
  {
    var a := [Finite(0.10)];
    var b := [Finite(0.10), Finite(0.10)];
    RunSnoc(INITIAL, [], Finite(0.10));
    assert [] + [Finite(0.10)] == a;
    RunSnoc(INITIAL, a, Finite(0.10));
    assert a + [Finite(0.10)] == b;
    RunSnoc(INITIAL, b, Finite(0.10));
    assert b + [Finite(0.10)] == [Finite(0.10), Finite(0.10), Finite(0.10)];
  }

  /** What the detector keeps per hand: the recent normalized landmark sets and
      the debounce state. */
  datatype HandState = HandState(posHist: seq<seq<Point>>, pinchCount: int, isPinched: bool)

  function Counters(st: HandState): Counter { Counter(st.pinchCount, st.isPinched) }

  /** What one detector update reports. */
  datatype PinchResult = PinchResult(rawDist: real, scale: real, relDist: Dist, isPinched: bool)

  /** The state after one detector update of a hand. */
  function Observe(st: HandState, landmarks: seq<Point>, rawDist: real, handScale: real): (r: HandState)
    ensures |st.posHist| <= HISTOGRAM_SIZE ==> |r.posHist| <= HISTOGRAM_SIZE
    ensures r.posHist == Slide(st.posHist, landmarks)
    ensures r.posHist != [] && Last(r.posHist) == landmarks
    ensures Counters(r) == PinchStep(Counters(st), RelDist(rawDist, handScale))
  {
    var step := PinchStep(Counters(st), RelDist(rawDist, handScale));
    HandState(Slide(st.posHist, landmarks), step.count, step.pinched)
  }

  ghost predicate ValidHand(st: HandState)
  {
    |st.posHist| <= HISTOGRAM_SIZE && Reachable(Counters(st))
  }

  class PinchDetector {
    var hands: map<Label, HandState>

    ghost predicate Valid()
      reads this
    {
      forall l: Label :: l in hands && ValidHand(hands[l])
    }

    /** Both hands start with an empty history, counter 0 and no pinch. */
    constructor ()
      ensures Valid()
      ensures hands == map[LEFT := HandState([], 0, false), RIGHT := HandState([], 0, false)]
    {
      hands := map[LEFT := HandState([], 0, false), RIGHT := HandState([], 0, false)];
      new;
      assert ValidHand(HandState([], 0, false));
      forall l: Label ensures l in hands && ValidHand(hands[l]) {
        assert l == LEFT || l == RIGHT;
      }
    }

    /** One frame for one hand: record the landmarks, step the debounce logic,
        store the new state and report it. The other hand is untouched. */
    method Update(hand: Label, landmarks: seq<Point>, rawDist: real, handScale: real)
      returns (res: PinchResult)
      requires Valid()
      requires |landmarks| > MIDDLE_MCP_IDX
      modifies this
      ensures Valid()
      ensures hands == old(hands)[hand := Observe(old(hands[hand]), landmarks, rawDist, handScale)]
      ensures res == PinchResult(rawDist, handScale, RelDist(rawDist, handScale), hands[hand].isPinched)
    {
      var state := hands[hand];
      var posHist := Slide(state.posHist, landmarks);

      var relDist := if handScale > 0.0 then Finite(rawDist / handScale) else Infinite;

      var pc, pinched := state.pinchCount, state.isPinched;
      if pinched {
        if relDist.Infinite? || relDist.value > PINCH_OFF_THRESH {
          pc := pc - 1;
        }
      } else {
        if relDist.Finite? && relDist.value < PINCH_ON_THRESH {
          pc := pc + 1;
        }
      }

      pc := if PINCH_FRAMES_REQ <= pc then PINCH_FRAMES_REQ
            else if pc <= -PINCH_FRAMES_REQ then -PINCH_FRAMES_REQ
            else pc;

      if !pinched && pc >= PINCH_FRAMES_REQ {
        pinched := true;
      } else if pinched && pc <= -PINCH_FRAMES_REQ {
        pinched := false;
      }

      assert Counter(pc, pinched) == PinchStep(Counters(state), relDist);
      assert ValidHand(HandState(posHist, pc, pinched));
      hands := hands[hand := HandState(posHist, pc, pinched)];
      res := PinchResult(rawDist, handScale, relDist, pinched);
    }
  }
}

=== FILE: window.dfy ===
/** The bounded sliding window used for hand histories: a `deque(maxlen=5)` in the
    pinch detector and a list trimmed with `pop(0)` in the pixel histogram. */
module Window {

  /** Capacity of every history window (HISTOGRAM_SIZE). */
  const HISTOGRAM_SIZE: nat := 5

  function Min(a: int, b: int): int { if a <= b then a else b }

  function Last<T>(h: seq<T>): T
    requires h != []
  {
    h[|h| - 1]
  }

  /** Everything but the newest entry. */
  function Prefix<T>(h: seq<T>): seq<T>
    requires h != []
  {
    h[..|h| - 1]
  }

  /** Append `x`; once the window is full the oldest entry is dropped first.
      The result keeps the newest entries of `h + [x]`, at most HISTOGRAM_SIZE of them. */
  function Slide<T>(h: seq<T>, x: T): (r: seq<T>)
    ensures r != [] && Last(r) == x
    ensures |h| <= HISTOGRAM_SIZE ==> |r| == Min(|h| + 1, HISTOGRAM_SIZE)
    ensures |h| <= HISTOGRAM_SIZE ==>
              forall i :: 0 <= i < |r| - 1 ==> r[i] == h[|h| + 1 - |r| + i]
  {
    if |h| < HISTOGRAM_SIZE then h + [x] else h[1..] + [x]
  }

  /** Appending every element of `xs`, in order. */
  function SlideAll<T>(h: seq<T>, xs: seq<T>): seq<T>
  {
    if xs == [] then h else Slide(SlideAll(h, Prefix(xs)), Last(xs))
  }

  /** Whatever was appended, the window holds exactly the newest
      min(total, HISTOGRAM_SIZE) entries of everything it has seen. */
  lemma {:induction false} SlideAllKeepsNewest<T>(h: seq<T>, xs: seq<T>)
    requires |h| <= HISTOGRAM_SIZE
    ensures var all := h + xs;
            SlideAll(h, xs) == all[|all| - Min(|all|, HISTOGRAM_SIZE)..]
  {
    var all := h + xs;
    if xs == [] {
      assert all == h;
    } else {
      var x := Last(xs);
      var init := Prefix(xs);
      var prev := h + init;
      SlideAllKeepsNewest(h, init);
      var w := SlideAll(h, init);
      assert SlideAll(h, xs) == Slide(w, x);
      assert all == prev + [x];
      if |prev| < HISTOGRAM_SIZE {
        assert w == prev[0..] == prev;
      } else {
        var k := |prev| - HISTOGRAM_SIZE;
        assert w == prev[k..];
        assert |all| - Min(|all|, HISTOGRAM_SIZE) == k + 1;
        assert Slide(w, x) == prev[k..][1..] + [x];
        assert prev[k..][1..] == prev[k + 1..];
        assert all[k + 1..] == prev[k + 1..] + [x];
      }
    }
  }

  /** FIFO bound: after HISTOGRAM_SIZE + n appends to an empty window, it holds
      HISTOGRAM_SIZE entries and the oldest one is xs[n]. */
  lemma FifoAfterOverflow<T>(xs: seq<T>, n: nat)
    requires |xs| == HISTOGRAM_SIZE + n
    ensures |SlideAll([], xs)| == HISTOGRAM_SIZE
    ensures SlideAll([], xs)[0] == xs[n]
    ensures Last(SlideAll([], xs)) == Last(xs)
  {
    SlideAllKeepsNewest([], xs);
    assert [] + xs == xs;
  }
}
